=== FILE: README.md ===
# shuttle: readiness, flat-archive grouping and delivery, in Dafny

This project models the decision logic of shuttle, a daemon that watches a source tree and ships files to a WebDAV or SFTP endpoint once they have settled. Three pieces are modelled:

- **Readiness (the stability detector).** One cycle of `ProcessManager.doWork` walks the watched root. It folds the walk's observations into a readiness table (FolderKey to bool) using two horizons, `D` and `2D`. It then either pushes every ready unit, or, in `flat_tar` mode, copies each ready file into the grouping staging directory (module `Readiness`, module `Detector`).
- **Flat-archive grouping.** `applyRegex` derives a capture list and a group key from a file name. `collectTarPrefixes` rebuilds the group map from the staging listing. `processTarPrefixes` moves each group's files into a directory, archives it, pushes the archive path and removes the directory (module `FlatArchive`).
- **Delivery.** `doWorkImplementation` polls one destination's staging directory. A plain file gets one `send_file`. A directory is archived first in `zip`/`tar` mode, and is drained file by file otherwise. An entry is removed only when `ok` holds (module `Delivery`). Module `Transport` covers how the pipeline's profile and transport are chosen.

Durations are Go `time.Duration` values (int64 nanoseconds) and are written as integers. Everything outside the decision logic is an input or an oracle (a function-typed parameter). That covers the filesystem, the regular-expression engine, the archivers and the transport:

- `Regex` gives `FindStringSubmatch`'s answer for a name.
- `WatchConfig.rootDir` stands for `getRootDir`.
- `FlatOps` answers `MkdirAll`, `Copy`, the per-file `os.Remove`, `tarFolder` and `RemoveAll` for the grouper. Each of them may fail.
- `Oracles.send(p, n)` answers the `n`-th `send_file` call of a run. A transport can therefore fail and later succeed.
- The other fields of `Oracles` answer `os.Remove`, `os.RemoveAll`, `zipFolder`/`tarFolder` and `os.Stat`.

Go's map iteration order is unspecified. The loops over maps (`EmitReady`, `ProcessTarPrefixes`) therefore pick keys with `:|`, and their contracts hold for every order. The drain loop's per-pass walk also visits files in any order. `filepath.Walk` uses lexical order, which is one of the orders allowed.

## Model

| member | source | states |
|---|---|---|
| `Readiness.WalkFromCharacterized` | process_manager.go:120-147 | Walking from any table: a key is present iff it was present or a regular file younger than `2D` is filed under it. It stays `true` iff it was not already `false` and every such file is older than `D`. The first walk error ends the fold. |
| `Readiness.ClassifyCharacterized` | process_manager.go:118-147 | Final value of a cycle's table: a key is present iff some regular file with age `< 2D` maps to it. It is `true` iff every such file has age `> D`. |
| `Readiness.ClassifyOrderIndependent` | process_manager.go:135-140 | Two error-free walks that saw the same observations, in any order, build the same table. |
| `Readiness.FalseIsFinal` | process_manager.go:135-140 | A key once marked `false` stays present and `false` for the rest of the walk, because `true` is only written to an absent key. |
| `Readiness.IgnoredObservationInvisible` | process_manager.go:125-128 | A directory, or a file aged `2D` or more, can be removed from any position of the walk without changing the table. |
| `Readiness.ReadyKeysAreFolderKeys` | process_manager.go:129-133 | In `file`/`flat_tar` mode every ready key is the relative path of a settled recent file. In other modes it is `getRootDir` of one. |
| `FlatArchive.ApplyRegex` | process_manager.go:23-38 | No match gives captures `[name + "_archive"]` and that same key. A match with more than one element drops the full match. The key is never empty and never the raw name. It is the `"___"`-join of the captures unless that join is empty or equals the name, in which case it is `name + "_archive"`. |
| `FlatArchive.CollectKeys` | process_manager.go:40-56 | The group map is rebuilt from empty out of the listing alone. It holds exactly the keys that some regular file of the listing derives. |
| `FlatArchive.CollectValue` | process_manager.go:49-55 | Each key maps to the capture list of the last regular file in the listing that derives it. |
| `FlatArchive.CollectIgnoresDirectories` | process_manager.go:49-52 | Dropping the directories from the listing leaves the collected map unchanged. |
| `FlatArchive.MoveGroupMembersAsWritten` | process_manager.go:71-86 | The source's inner loop: a staged file leaves the staging directory iff it is listed, its recomputed captures equal the group's, and its removal succeeds, whatever became of its copy. A file reaches the group directory iff it is listed, staged, matches and its copy succeeds. |
| `FlatArchive.CopyFailureLosesFile` | process_manager.go:79-84 | As written, a group file whose copy fails and whose removal succeeds ends up in neither the group directory nor the staging directory. |
| `FlatArchive.MoveGroupMembers` | process_manager.go:71-86 | Corrected move: a file joins the group directory iff it is listed, still staged, matches the group's captures and copies successfully. It leaves the staging directory iff it joined and its removal succeeded. Every staged file ends up in the group directory, the staging directory, or both (when its removal failed). |
| `FlatArchive.ProcessTarPrefixes` | process_manager.go:58-106 | For any map order: each group gets exactly one report. A group whose mkdir fails is skipped and keeps its key. A group's key is deleted iff its mkdir and its `RemoveAll` both succeed, and the other values are unchanged. Each moved file matches its group's captures. No staged file is lost. A moved file stays staged iff its removal failed, and only such a file is moved by two groups. A file still staged at the end that matches a created group and copies into it successfully is a member of that group whose removal failed, so it is archived and also stays staged. One archive path is pushed per created group. The staging subdirectories are the old ones plus created groups, minus those removed. |
| `Detector.EmitReady` | process_manager.go:158-172 | For any map order, every `true` key is emitted exactly once and no `false` key is emitted. Outside `flat_tar` mode it is pushed as `src/k`. In `flat_tar` mode nothing is pushed and the key is copied to `FlatTarTempPath/base(k)` instead. |
| `Detector.ReadyMeansSettled` | process_manager.go:158-160 | The emitted keys are exactly those with a recent regular file whose recent files have all settled. |
| `Detector.UnmatchedNotMoved` | process_manager.go:76-85 | A file whose capture list equals no group's list is moved into no group. |
| `Detector.DetectorCycle` | process_manager.go:117-175 | One detector cycle. Ready units are exactly the settled keys, each once. Outside `flat_tar` mode they are pushed. In `flat_tar` mode the groups are collected from the listing before this cycle's copies, and every report agrees with the filesystem answers: a group is created iff its mkdir succeeds, and the pushed paths are the archives of the created groups. The files staged before the cycle plus this cycle's successful copies are exactly the files still staged plus the groups' members. A moved file stays staged iff its removal failed. A file still staged at the end that matches a created group and copies into it successfully is a member of that group whose removal failed. A file staged this cycle that matches no collected group stays staged. |
| `Delivery.DrainPass` | transfer_manager.go:72-83 | One walk of the drain loop in any order. The trace agrees with the world: sends carry the run's call numbers in order, each send's delivery flag is the transport's answer to that call, and each delete is a removal that succeeded. A file is deleted only right after its send reported delivery, and a delivered file that can be removed is deleted at once. Every file sent is one of the directory's. A pass that returns no error has sent every file, including after a send that neither delivered nor erred. A pass visits a file iff any remain. It makes at most one send per file, and exactly one per file when it returns no error. `ok` is the last send's answer. A pass that ends `ok == false` leaves a file behind. When every send delivers and every removal succeeds, the pass empties the directory. |
| `Delivery.DrainDirectory` | transfer_manager.go:67-85 | Every file gone from the directory was reported delivered by the transport on some send of this run, and its removal succeeded. The trace agrees with the transport's and the filesystem's answers, as for one pass. The drain loop ends only after a pass that visits no file, and the directory is then empty. A loop that has not ended after `budget` passes has made at least `budget` sends, because a pass that visits a file sends it, so the model never gives up early. `ok` is then `true` iff the directory had files, so an empty directory is never removed. With cooperative oracles the loop ends within `N + 1` passes for `N` files. |
| `Delivery.DeletedWereDelivered` | transfer_manager.go:75-78 | A file the drain loop deleted was reported delivered by `send_file` on some call of the run, and its removal succeeded. This holds for any trace that agrees with the world and deletes only after deliveries. |
| `Delivery.ProcessEntry` | transfer_manager.go:38-94 | The entry is removed iff `ok` and `RemoveAll` succeeds, otherwise it stays for the next poll. The entry's trace agrees with the transport's and the filesystem's answers, starting at the given send number. Files are deleted only right after a delivered send. A plain file gets exactly one send, and `ok` is its answer. In `zip`/`tar` mode an archive or stat failure means no send, `ok == false` and an error; otherwise the archive gets exactly one send. A drained directory keeps exactly its undeleted files: the undelivered ones and the delivered ones whose removal failed. A drained directory reported stalled has had at least `budget` sends, one for each of its passes. |
| `Delivery.Poll` | transfer_manager.go:37-96 | Entries are handled in listing order. They stop only at a drain loop that did not end within `budget` passes, each of which sent a file. Each handled entry's outcome meets the per-entry contract of `ProcessEntry`, with the send numbering carried from one entry to the next. So each plain file gets one send whose answer is its `ok`. A drained file is deleted only after the transport reported it delivered, and its removal succeeded. An entry is removed iff it was `ok` and its `RemoveAll` succeeded. An entry is kept for the next poll iff some outcome left it staged or it was not reached. |
| `Transport.NewTransferManager` | transfer_manager.go:123-131 | `"webdav"` and `"sftp"` build a manager of that transport over the given profile. Every other tag is an error. |
| `Transport.TagSelectsKind` | transfer_manager.go:124-128 | A transport's own tag builds exactly that transport over the given profile: `"webdav"` gives WebDAV and `"sftp"` gives SFTP. |
| `Transport.NewFileTransferManager` | transfer_manager.go:101-110 | The primary pipeline uses `user`/`pass`/`dst` and stages in `TempPath`. |
| `Transport.NewConvertedTransferManager` | transfer_manager.go:112-121 | The converted pipeline uses the converter's credentials and endpoint and stages in `TempConvertedPath`. |
| `Transport.ProfilesShareTransport` | transfer_manager.go:101-121 | The two pipelines are built or refused together and use the same transport. Their staging directories differ whenever the two working directories differ. |

## Left out

- Filesystem effects (`filepath.Walk`, `ReadDir`, `Copy`, `Remove`, `RemoveAll`, `MkdirAll`, `Stat`) are inputs or oracles that answer whether each call succeeded. A walk is its sequence of callback observations, and a listing is a sequence of entries.
- A failing `ReadDir` of the grouping staging directory ends the process with `log.Fatal` (process_manager.go:41-44, 59-62). The model always has a listing, so that exit is not modelled.
- The regular-expression engine, `getRootDir`, `tarFolder`, `zipFolder` and the concrete `send_file`/`connect_to_server` of WebDAV and SFTP are oracles, because their code is not part of this model. `AreEqual` is sequence equality.
- Time and scheduling are not modelled: `time.Now`, every `time.Sleep` (cycle pacing, `duration/2`, the drain loop's 10 ms), goroutines, the `done_files` channel and the `quit` select. Pushing to the channel is modelled as appending to a returned sequence.
- Logging is not modelled: the log lines for a failed `Copy`, a failed `RemoveAll` of a delivered entry, or an entry's error have no counterpart. Only the `failed` flag of an outcome records that an error came back.
- `filepath.Rel` failure in the walk callback is not modelled, because it cannot fail for paths the walk produces under the root.
- Readiness: the int64 arithmetic of `now.Sub` (which saturates) and of `2*duration` (which can wrap) is not modelled. Ages and `D` are unbounded integers.
- `PathJoin` is plain concatenation with `/`. The cleaning `filepath.Join` does (`..`, doubled separators) is not modelled. Group keys and names are assumed not to contain separators.
- The copy of the archive back into the group directory just before `RemoveAll` (process_manager.go:93-98) is not modelled. The archive is opaque, and whether it survives the directory's removal is not decided.
- `FlatArchive.ProcessTarPrefixes`: its inner loop is the corrected move `FlatArchive.MoveGroupMembers`, not the loop as written (see Findings), so its no-loss promise is about the corrected grouper. `tarFolder` is answered per group key. The pushed path is pushed even when archiving reports an error, as in the source. The archive's byte contents are not modelled.
- `Delivery.DrainDirectory`: the source loops with no bound while any file remains, so a file that is never delivered (or never removed) keeps it spinning forever. The model runs at most `budget` passes and reports `stalled` only when it did not end within `budget` passes, each of which sent a file. `Delivery.Poll` stops at a stalled entry, since the real orchestrator might never leave it. The directory's file set is fixed during the drain (no files arrive meanwhile). Walk errors other than those returned by `send_file` and `os.Remove` are not modelled.
- `Detector.DetectorCycle`: its grouper is `FlatArchive.ProcessTarPrefixes` with the corrected inner loop, so its no-loss promise is about the corrected grouper too.
- `Delivery.ProcessEntry`: the archive that `zipFolder`/`tarFolder` writes is not tracked after it is sent. Only the staged entry is removed.
- prepare_manager.go (stat, copy to the working area, pre-send scripts, `log.Fatal`) and the build-tagged compat.go / compat_xp.go wrappers are not part of this model.

Behaviour of the code worth noting:

- A directory with no files is never removed by the drain path, because `ok` stays `false`.
- The grouper reads the group map from the listing taken before this cycle's copies, but moves files from the listing taken after them.
- An archive path is pushed even when archiving failed.
- The error of the grouper's per-file `os.Remove` is never read. A copied file whose removal fails is archived and also stays staged, so a later cycle groups it again.

## Findings

| source | as written | input that shows it | evidently intended | confidence | as-written member | corrected member |
|---|---|---|---|---|---|---|
| process_manager.go:79-84 | When `Copy` into the group directory fails, the error is logged and `os.Remove(sourcePath)` still runs. | A staged file that matches a created group, whose copy into the group directory fails and whose removal succeeds. It is neither archived nor left in staging, so it is lost. | Remove the staged file only after it has been copied, so that a failed file stays staged for the next cycle. | medium, not executed | `FlatArchive.MoveGroupMembersAsWritten` (shown by `FlatArchive.CopyFailureLosesFile`) | `FlatArchive.MoveGroupMembers` (used by `FlatArchive.ProcessTarPrefixes`) |

=== FILE: common.dfy ===
/** Shared vocabulary: optional and failing results, Go's `strings.Join`, and
    the two path helpers (`filepath.Join`, `filepath.Base`) the daemon uses. */
module Common {

  datatype Option<+T> = None | Some(value: T)

  datatype Result<+R, +E> = Success(value: R) | Failure(error: E)

  /** `strings.Join(parts, sep)`: the parts with `sep` between neighbours. */
  function JoinWith(parts: seq<string>, sep: string): (r: string)
    ensures |parts| == 0 ==> r == ""
    ensures |parts| == 1 ==> r == parts[0]
    ensures |parts| > 1 ==> |r| >= |parts[0]| + |sep|
  {
    if |parts| == 0 then ""
    else if |parts| == 1 then parts[0]
    else parts[0] + sep + JoinWith(parts[1..], sep)
  }

  /** `filepath.Join(dir, name)` for a directory and a relative name; the
      path cleaning Go performs on `..` and doubled separators is not modelled. */
  function PathJoin(dir: string, name: string): string
  {
    dir + "/" + name
  }

  /** The part of `p` after its last separator. */
  function LastSegment(p: string): (r: string)
    ensures '/' !in r
    ensures |r| <= |p| && r == p[|p| - |r|..]
    ensures '/' !in p ==> r == p
  {
    if |p| == 0 then ""
    else if p[|p| - 1] == '/' then ""
    else
      var r := LastSegment(p[..|p| - 1]) + [p[|p| - 1]];
      assert p[..|p| - 1][|p| - 1 - (|r| - 1)..] + [p[|p| - 1]] == p[|p| - |r|..];
      r
  }

  /** `p` without its trailing separators. */
  function TrimTrailingSeparators(p: string): (r: string)
    ensures |r| <= |p| && r == p[..|r|]
    ensures r == "" || r[|r| - 1] != '/'
  {
    if |p| > 0 && p[|p| - 1] == '/' then TrimTrailingSeparators(p[..|p| - 1]) else p
  }

  /** `filepath.Base(p)`: the last path element after trailing separators are
      dropped; "." for the empty path and "/" for a path of separators only. */
  function Base(p: string): (r: string)
    ensures r != ""
    ensures r == "/" || '/' !in r
    ensures p != "" && '/' !in p ==> r == p
  {
    if p == "" then "."
    else
      var q := TrimTrailingSeparators(p);
      if q == "" then "/" else LastSegment(q)
  }
}

=== FILE: delivery.dfy ===
/** The delivery orchestrator (`doWorkImplementation`): one poll over a
    destination's staging directory. Each entry is a plain file (sent once),
    a directory archived first (zip or tar mode), or a directory drained file
    by file. The transport and the filesystem are oracles. */
module Delivery {
  import opened Common

  /** What one `send_file` call returns: delivered, and whether an error came back. */
  datatype SendOutcome = SendOutcome(delivered: bool, failed: bool)

  /** What the orchestrator does to individual files, in order. A send
      carries the number of the `send_file` call of the run that made it. */
  datatype Event = Send(path: string, n: nat, delivered: bool) | Delete(path: string)

  /** The world as the orchestrator sees it. `send(p, n)` answers the `n`-th
      `send_file` call of the run, made for path `p`, so a transport may fail
      and later succeed; `archive(kind, dir)` is `zipFolder`/`tarFolder`
      (None on error); `stat` says whether the archive can be stat'ed. */
  datatype Oracles = Oracles(
    send: (string, nat) -> SendOutcome,
    remove: string -> bool,
    removeAll: string -> bool,
    archive: (string, string) -> Option<string>,
    stat: string -> bool)

  /** Every send delivers and every removal succeeds. */
  ghost predicate Cooperative(o: Oracles)
  {
    (forall p, n :: o.send(p, n).delivered) && (forall p :: o.remove(p))
  }

  /** The files a trace deleted. */
  function DeletedFiles(trace: seq<Event>): set<string>
    decreases |trace|
  {
    if |trace| == 0 then {}
    else
      var e := trace[|trace| - 1];
      DeletedFiles(trace[..|trace| - 1]) + (if e.Delete? then {e.path} else {})
  }

  /** The files a trace sent, delivered or not. */
  function Sent(trace: seq<Event>): set<string>
    decreases |trace|
  {
    if |trace| == 0 then {}
    else
      var e := trace[|trace| - 1];
      Sent(trace[..|trace| - 1]) + (if e.Send? then {e.path} else {})
  }

  /** The `ok` flag after a trace: the last send's answer, or `ok0` if none. */
  function LastDelivered(trace: seq<Event>, ok0: bool): bool
    decreases |trace|
  {
    if |trace| == 0 then ok0
    else
      var e := trace[|trace| - 1];
      if e.Send? then e.delivered else LastDelivered(trace[..|trace| - 1], ok0)
  }

  /** Safety of the drain loop: a file is deleted only immediately after a
      send of that same file reported delivery. */
  predicate DeletesFollowDeliveries(trace: seq<Event>)
  {
    forall i :: 0 <= i < |trace| && trace[i].Delete? ==>
      i > 0 && trace[i - 1].Send? && trace[i - 1].path == trace[i].path && trace[i - 1].delivered
  }

  /** The trace is what the world answered: its sends carry the call numbers
      `calls0` up to `calls - 1` in order, each send's `delivered` is the
      transport's answer to that call, and each delete is a removal that
      succeeded. */
  predicate AgreesWith(trace: seq<Event>, o: Oracles, calls0: nat, calls: nat)
    decreases |trace|
  {
    if |trace| == 0 then calls == calls0
    else
      var e := trace[|trace| - 1];
      if e.Send? then
        calls == e.n + 1 && e.delivered == o.send(e.path, e.n).delivered && AgreesWith(trace[..|trace| - 1], o, calls0, e.n)
      else o.remove(e.path) && AgreesWith(trace[..|trace| - 1], o, calls0, calls)
  }

  /** Liveness of the drain loop's deletes: a delivered send of a file that
      can be removed is followed at once by its delete. */
  predicate DeletesWhenRemovable(trace: seq<Event>, o: Oracles)
  {
    forall i :: 0 <= i < |trace| && trace[i].Send? && trace[i].delivered && o.remove(trace[i].path) ==>
      i + 1 < |trace| && trace[i + 1] == Delete(trace[i].path)
  }

  /** Every event of the trace concerns a path of `paths`. */
  predicate Within(trace: seq<Event>, paths: set<string>)
  {
    forall i :: 0 <= i < |trace| ==> trace[i].path in paths
  }

  lemma WithinAppend(a: seq<Event>, b: seq<Event>, small: set<string>, large: set<string>)
    requires Within(a, small) && Within(b, large) && small <= large
    ensures Within(a + b, large)
  {
    forall i | 0 <= i < |a + b| ensures (a + b)[i].path in large {
      if i < |a| { assert (a + b)[i] == a[i]; } else { assert (a + b)[i] == b[i - |a|]; }
    }
  }

  lemma {:induction false} DeletedFilesAppend(a: seq<Event>, b: seq<Event>)
    ensures DeletedFiles(a + b) == DeletedFiles(a) + DeletedFiles(b)
    decreases |b|
  {
    if |b| == 0 {
      assert a + b == a;
    } else {
      var b' := b[..|b| - 1];
      assert (a + b)[..|a + b| - 1] == a + b';
      assert (a + b)[|a + b| - 1] == b[|b| - 1];
      DeletedFilesAppend(a, b');
    }
  }

  lemma {:induction false} SentAppend(a: seq<Event>, b: seq<Event>)
    ensures Sent(a + b) == Sent(a) + Sent(b)
    decreases |b|
  {
    if |b| == 0 {
      assert a + b == a;
    } else {
      var b' := b[..|b| - 1];
      assert (a + b)[..|a + b| - 1] == a + b';
      assert (a + b)[|a + b| - 1] == b[|b| - 1];
      SentAppend(a, b');
    }
  }

  lemma {:induction false} AgreesWithAppend(a: seq<Event>, b: seq<Event>, o: Oracles, calls0: nat, calls1: nat, calls2: nat)
    requires AgreesWith(a, o, calls0, calls1) && AgreesWith(b, o, calls1, calls2)
    ensures AgreesWith(a + b, o, calls0, calls2)
    decreases |b|
  {
    if |b| == 0 {
      assert a + b == a;
    } else {
      var b' := b[..|b| - 1];
      var e := b[|b| - 1];
      assert (a + b)[..|a + b| - 1] == a + b';
      assert (a + b)[|a + b| - 1] == e;
      if e.Send? {
        AgreesWithAppend(a, b', o, calls0, calls1, e.n);
      } else {
        AgreesWithAppend(a, b', o, calls0, calls1, calls2);
      }
    }
  }

  lemma {:induction false} AgreesWithCounts(trace: seq<Event>, o: Oracles, calls0: nat, calls: nat)
    requires AgreesWith(trace, o, calls0, calls)
    ensures calls0 <= calls
    decreases |trace|
  {
    if |trace| > 0 {
      var e := trace[|trace| - 1];
      AgreesWithCounts(trace[..|trace| - 1], o, calls0, if e.Send? then e.n else calls);
    }
  }

  /** Safety against the world: a file the trace deleted was reported
      delivered by the transport on some send of this run, and its removal
      succeeded. */
  lemma {:induction false} DeletedWereDelivered(trace: seq<Event>, o: Oracles, calls0: nat, calls: nat)
    requires AgreesWith(trace, o, calls0, calls) && DeletesFollowDeliveries(trace)
    ensures forall p :: p in DeletedFiles(trace) ==> o.remove(p) && exists n :: calls0 <= n < calls && o.send(p, n).delivered
    decreases |trace|
  {
    if |trace| > 0 {
      var init := trace[..|trace| - 1];
      var e := trace[|trace| - 1];
      assert DeletesFollowDeliveries(init) by {
        forall i | 0 <= i < |init| && init[i].Delete?
          ensures i > 0 && init[i - 1].Send? && init[i - 1].path == init[i].path && init[i - 1].delivered
        {
          assert init[i] == trace[i] && trace[i - 1] == init[i - 1];
        }
      }
      if e.Send? {
        DeletedWereDelivered(init, o, calls0, e.n);
      } else {
        DeletedWereDelivered(init, o, calls0, calls);
        var s := init[|init| - 1];
        assert s == trace[|trace| - 2];
        AgreesWithCounts(init[..|init| - 1], o, calls0, s.n);
        assert calls0 <= s.n < calls && o.send(e.path, s.n).delivered;
      }
    }
  }

  lemma DeletesWhenRemovableAppend(a: seq<Event>, b: seq<Event>, o: Oracles)
    requires DeletesWhenRemovable(a, o) && DeletesWhenRemovable(b, o)
    ensures DeletesWhenRemovable(a + b, o)
  {
    forall i | 0 <= i < |a + b| && (a + b)[i].Send? && (a + b)[i].delivered && o.remove((a + b)[i].path)
      ensures i + 1 < |a + b| && (a + b)[i + 1] == Delete((a + b)[i].path)
    {
      if i < |a| {
        assert (a + b)[i] == a[i] && (a + b)[i + 1] == a[i + 1];
      } else {
        assert (a + b)[i] == b[i - |a|] && (a + b)[i + 1] == b[i - |a| + 1];
      }
    }
  }

  lemma {:induction false} LastDeliveredAppend(a: seq<Event>, b: seq<Event>, ok0: bool)
    ensures LastDelivered(a + b, ok0) == LastDelivered(b, LastDelivered(a, ok0))
    decreases |b|
  {
    if |b| == 0 {
      assert a + b == a;
    } else {
      var b' := b[..|b| - 1];
      assert (a + b)[..|a + b| - 1] == a + b';
      assert (a + b)[|a + b| - 1] == b[|b| - 1];
      LastDeliveredAppend(a, b', ok0);
    }
  }

  lemma DeletesFollowDeliveriesAppend(a: seq<Event>, b: seq<Event>)
    requires DeletesFollowDeliveries(a) && DeletesFollowDeliveries(b)
    ensures DeletesFollowDeliveries(a + b)
  {
    forall i | 0 <= i < |a + b| && (a + b)[i].Delete?
      ensures i > 0 && (a + b)[i - 1].Send? && (a + b)[i - 1].path == (a + b)[i].path && (a + b)[i - 1].delivered
    {
      if i < |a| {
        assert (a + b)[i] == a[i] && (a + b)[i - 1] == a[i - 1];
      } else {
        assert (a + b)[i] == b[i - |a|];
        assert i - |a| > 0;
        assert (a + b)[i - 1] == b[i - |a| - 1];
      }
    }
  }

  /** One visit of the walk callback: the events it causes, the new `ok`,
      and whether it returns an error that ends the walk. */
  datatype Visited = Visited(step: seq<Event>, ok: bool, failed: bool)

  /** The walk callback on file `p`, making the `n`-th send of the run. */
  function Visit(p: string, n: nat, o: Oracles): Visited
  {
    var r := o.send(p, n);
    if r.delivered then
      if o.remove(p) then Visited([Send(p, n, true), Delete(p)], true, false) else Visited([Send(p, n, true)], true, true)
    else Visited([Send(p, n, false)], false, r.failed)
  }

  /** What a single visit does, in the terms the pass invariant uses. */
  lemma VisitFacts(p: string, n: nat, o: Oracles, ok0: bool)
    ensures var v := Visit(p, n, o);
      && (|v.step| == 2 ==> DeletedFiles(v.step) == {p} && !v.failed)
      && (|v.step| != 2 ==> DeletedFiles(v.step) == {})
      && LastDelivered(v.step, ok0) == v.ok
      && DeletesFollowDeliveries(v.step)
      && Within(v.step, {p})
      && Sent(v.step) == {p}
      && (!v.ok ==> |v.step| == 1)
      && (o.send(p, n).delivered && o.remove(p) ==> |v.step| == 2)
  {
    var step := Visit(p, n, o).step;
    if |step| == 2 {
      assert step == [Send(p, n, true), Delete(p)];
      assert step[..1] == [Send(p, n, true)];
      assert step[..1][..0] == [];
      assert DeletedFiles(step[..1]) == {};
      assert Sent(step[..1]) == {p};
    } else {
      assert step[..0] == [];
    }
  }

  /** A visit's events are the world's answers to its one send and its removal. */
  lemma VisitAgrees(p: string, n: nat, o: Oracles)
    ensures AgreesWith(Visit(p, n, o).step, o, n, n + 1)
    ensures DeletesWhenRemovable(Visit(p, n, o).step, o)
  {
    var step := Visit(p, n, o).step;
    assert step[..1] == [Send(p, n, o.send(p, n).delivered)];
    assert step[..1][..0] == [];
  }

  /** The state of a pass part-way through its walk, with `todo` still to visit. */
  datatype PassState = PassState(todo: set<string>, left: set<string>, visited: bool, ok: bool,
                                 failed: bool, trace: seq<Event>, calls: nat)

  /** Visiting `p` from state `s`. */
  function Advance(s: PassState, p: string, o: Oracles): PassState
  {
    var v := Visit(p, s.calls, o);
    PassState(s.todo - {p}, if |v.step| == 2 then s.left - {p} else s.left, true, v.ok, v.failed,
              s.trace + v.step, s.calls + 1)
  }

  /** The file-set part of the pass invariant. */
  predicate PassFiles(files: set<string>, s: PassState)
  {
    && s.todo <= s.left <= files
    && s.left == files - DeletedFiles(s.trace)
    && DeletesFollowDeliveries(s.trace)
    && Within(s.trace, files - s.todo)
    && Sent(s.trace) == files - s.todo
  }

  /** The flag part of the pass invariant. */
  predicate PassFlags(files: set<string>, ok0: bool, calls0: nat, s: PassState)
  {
    && (s.visited <==> s.todo != files)
    && (!s.visited ==> s.ok == ok0 && !s.failed && s.trace == [] && s.calls == calls0)
    && s.ok == LastDelivered(s.trace, ok0)
    && (s.visited && !s.ok ==> s.left != {})
    && s.calls + |s.todo| == calls0 + |files|
    && (s.visited ==> s.calls > calls0)
  }

  /** The part of the pass invariant that ties the trace to the world. */
  predicate PassAgrees(calls0: nat, o: Oracles, s: PassState)
  {
    AgreesWith(s.trace, o, calls0, s.calls) && DeletesWhenRemovable(s.trace, o)
  }

  /** What holds part-way through a pass. */
  ghost predicate PassInv(files: set<string>, ok0: bool, calls0: nat, o: Oracles, s: PassState)
  {
    && PassFiles(files, s)
    && PassFlags(files, ok0, calls0, s)
    && PassAgrees(calls0, o, s)
    && (Cooperative(o) ==> s.left == s.todo && !s.failed)
  }

  lemma PassFilesStep(files: set<string>, s: PassState, p: string, o: Oracles)
    requires PassFiles(files, s) && p in s.todo
    ensures PassFiles(files, Advance(s, p, o))
  {
    var v := Visit(p, s.calls, o);
    VisitFacts(p, s.calls, o, false);
    DeletedFilesAppend(s.trace, v.step);
    SentAppend(s.trace, v.step);
    DeletesFollowDeliveriesAppend(s.trace, v.step);
    assert Within(v.step, files - (s.todo - {p}));
    WithinAppend(s.trace, v.step, files - s.todo, files - (s.todo - {p}));
  }

  lemma PassFlagsStep(files: set<string>, ok0: bool, calls0: nat, s: PassState, p: string, o: Oracles)
    requires PassFlags(files, ok0, calls0, s)
    requires s.todo <= s.left <= files && p in s.todo
    ensures PassFlags(files, ok0, calls0, Advance(s, p, o))
  {
    var v := Visit(p, s.calls, o);
    VisitFacts(p, s.calls, o, LastDelivered(s.trace, ok0));
    LastDeliveredAppend(s.trace, v.step, ok0);
    assert |s.todo - {p}| == |s.todo| - 1;
  }

  lemma PassStep(files: set<string>, ok0: bool, calls0: nat, o: Oracles, s: PassState, p: string)
    requires PassInv(files, ok0, calls0, o, s) && p in s.todo
    ensures PassInv(files, ok0, calls0, o, Advance(s, p, o))
    ensures |Advance(s, p, o).todo| < |s.todo|
  {
    PassFilesStep(files, s, p, o);
    PassFlagsStep(files, ok0, calls0, s, p, o);
    PassCooperativeStep(s, p, o);
    PassAgreesStep(calls0, o, s, p);
  }

  lemma PassAgreesStep(calls0: nat, o: Oracles, s: PassState, p: string)
    requires PassAgrees(calls0, o, s)
    ensures PassAgrees(calls0, o, Advance(s, p, o))
  {
    var v := Visit(p, s.calls, o);
    VisitAgrees(p, s.calls, o);
    AgreesWithAppend(s.trace, v.step, o, calls0, s.calls, s.calls + 1);
    DeletesWhenRemovableAppend(s.trace, v.step, o);
  }

  lemma PassCooperativeStep(s: PassState, p: string, o: Oracles)
    requires Cooperative(o) ==> s.left == s.todo && !s.failed
    requires p in s.todo
    ensures Cooperative(o) ==> Advance(s, p, o).left == Advance(s, p, o).todo && !Advance(s, p, o).failed
  {
    if Cooperative(o) {
      assert o.send(p, s.calls).delivered && o.remove(p);
    }
  }

  /** One pass of the drain loop: one `filepath.Walk` over the directory's
      files, in any order. Each file is sent; a delivered file is removed; the
      walk stops at the first send error (when not delivered) or removal error,
      and goes on past a send that neither delivered nor reported an error. */
  method DrainPass(files: set<string>, ok0: bool, calls0: nat, o: Oracles)
    returns (left: set<string>, visited: bool, ok: bool, failed: bool, trace: seq<Event>, calls: nat)
    ensures left <= files && left == files - DeletedFiles(trace)
    ensures DeletesFollowDeliveries(trace)
    ensures Within(trace, files)
    ensures Sent(trace) <= files && (!failed ==> Sent(trace) == files)
    ensures AgreesWith(trace, o, calls0, calls) && DeletesWhenRemovable(trace, o)
    ensures visited <==> files != {}
    ensures !visited ==> ok == ok0 && !failed && trace == [] && calls == calls0
    ensures ok == LastDelivered(trace, ok0)
    ensures visited && !ok ==> left != {}
    ensures calls <= calls0 + |files| && (!failed ==> calls == calls0 + |files|)
    ensures visited ==> calls > calls0
    ensures Cooperative(o) ==> left == {} && !failed
  {
    var s := PassState(files, files, false, ok0, false, [], calls0);
    PassStart(files, ok0, calls0, o);
    while s.todo != {} && !s.failed
      invariant PassInv(files, ok0, calls0, o, s)
      decreases |s.todo|
    {
      var p :| p in s.todo;
      PassStep(files, ok0, calls0, o, s, p);
      s := Advance(s, p, o);
    }
    PassExit(files, ok0, calls0, o, s);
    left, visited, ok, failed, trace, calls := s.left, s.visited, s.ok, s.failed, s.trace, s.calls;
  }

  lemma PassStart(files: set<string>, ok0: bool, calls0: nat, o: Oracles)
    ensures PassInv(files, ok0, calls0, o, PassState(files, files, false, ok0, false, [], calls0))
  {
  }

  lemma PassExit(files: set<string>, ok0: bool, calls0: nat, o: Oracles, s: PassState)
    requires PassInv(files, ok0, calls0, o, s)
    requires s.todo == {} || s.failed
    ensures s.left <= files && s.left == files - DeletedFiles(s.trace)
    ensures DeletesFollowDeliveries(s.trace)
    ensures Within(s.trace, files)
    ensures Sent(s.trace) <= files && (!s.failed ==> Sent(s.trace) == files)
    ensures AgreesWith(s.trace, o, calls0, s.calls) && DeletesWhenRemovable(s.trace, o)
    ensures s.visited <==> files != {}
    ensures !s.visited ==> s.ok == ok0 && !s.failed && s.trace == [] && s.calls == calls0
    ensures s.ok == LastDelivered(s.trace, ok0)
    ensures s.visited && !s.ok ==> s.left != {}
    ensures s.calls <= calls0 + |files| && (!s.failed ==> s.calls == calls0 + |files|)
    ensures s.visited ==> s.calls > calls0
    ensures Cooperative(o) ==> s.left == {} && !s.failed
  {
    assert Within(s.trace, files - s.todo);
  }

  /** The drain loop: passes repeat while the previous pass visited a file.
      The source loops without bound; here at most `budget` passes run, and
      `drained` says whether the loop ended by itself. */
  method DrainDirectory(dir: set<string>, calls0: nat, budget: nat, o: Oracles)
    returns (left: set<string>, ok: bool, failed: bool, trace: seq<Event>, calls: nat, drained: bool, passes: nat)
    ensures left <= dir && left == dir - DeletedFiles(trace)
    ensures DeletesFollowDeliveries(trace)
    ensures Within(trace, dir)
    ensures AgreesWith(trace, o, calls0, calls) && DeletesWhenRemovable(trace, o)
    ensures forall p :: p in dir - left ==> o.remove(p) && exists n :: calls0 <= n < calls && o.send(p, n).delivered
    ensures passes <= budget && (!drained ==> passes == budget)
    ensures !drained ==> calls >= calls0 + budget
    ensures drained ==> left == {} && !failed && ok == (dir != {})
    ensures Cooperative(o) && budget > |dir| ==> drained && passes <= |dir| + 1
  {
    left, ok, failed, trace, calls, passes := dir, false, false, [], calls0, 0;
    var hasChanged := true;
    ghost var sentAny := false;
    while hasChanged && passes < budget
      invariant passes <= budget
      invariant DrainTrace(dir, calls0, o, left, trace, calls)
      invariant passes == 0 ==> left == dir
      invariant !hasChanged ==> left == {} && !failed && passes > 0
      invariant hasChanged ==> calls >= calls0 + passes
      invariant sentAny <==> passes > 0 && dir != {}
      invariant !sentAny ==> !ok
      invariant sentAny && !ok ==> left != {}
      invariant Cooperative(o) ==>
        && (passes > 0 ==> left == {})
        && (passes == 0 ==> hasChanged)
        && passes <= (if dir == {} then 1 else 2)
        && (passes == 2 || dir == {} ==> !hasChanged || passes == 0)
      decreases budget - passes
    {
      var left', visited, ok', failed', ptrace, calls' := DrainPass(left, ok, calls, o);
      DrainTraceStep(dir, calls0, o, left, trace, calls, left', ptrace, calls');
      left, ok, failed, calls := left', ok', failed', calls';
      trace := trace + ptrace;
      hasChanged := visited;
      sentAny := sentAny || visited;
      passes := passes + 1;
    }
    drained := !hasChanged;
    DeletedWereDelivered(trace, o, calls0, calls);
  }

  /** The trace part of the drain loop's invariant. */
  predicate DrainTrace(dir: set<string>, calls0: nat, o: Oracles, left: set<string>, trace: seq<Event>, calls: nat)
  {
    && left <= dir && left == dir - DeletedFiles(trace)
    && DeletesFollowDeliveries(trace)
    && Within(trace, dir)
    && AgreesWith(trace, o, calls0, calls) && DeletesWhenRemovable(trace, o)
  }

  lemma DrainTraceStep(dir: set<string>, calls0: nat, o: Oracles, left: set<string>, trace: seq<Event>, calls: nat,
                       left': set<string>, ptrace: seq<Event>, calls': nat)
    requires DrainTrace(dir, calls0, o, left, trace, calls)
    requires left' <= left && left' == left - DeletedFiles(ptrace)
    requires DeletesFollowDeliveries(ptrace) && Within(ptrace, left)
    requires AgreesWith(ptrace, o, calls, calls') && DeletesWhenRemovable(ptrace, o)
    ensures DrainTrace(dir, calls0, o, left', trace + ptrace, calls')
  {
    DeletedFilesAppend(trace, ptrace);
    DeletesFollowDeliveriesAppend(trace, ptrace);
    WithinAppend(trace, ptrace, dir, dir);
    AgreesWithAppend(trace, ptrace, o, calls0, calls, calls');
    DeletesWhenRemovableAppend(trace, ptrace, o);
  }

  /** One entry of a destination's staging directory. */
  datatype StagedEntry = StagedFile(name: string) | StagedDir(name: string, files: set<string>)

  /** The result of handling one entry. `failed` is a non-nil `gErr`,
      `stalled` a drain loop that did not end within its budget, and `after`
      the entry as the next poll finds it (None once removed). */
  datatype EntryOutcome = EntryOutcome(
    ok: bool,
    failed: bool,
    stalled: bool,
    removed: bool,
    trace: seq<Event>,
    after: Option<StagedEntry>)

  /** Delivery-side modes that archive a directory before sending it. */
  predicate ArchiveMode(sendType: string)
  {
    sendType == "zip" || sendType == "tar"
  }

  /** What handling entry `e` does, making sends from the `calls0`-th of the
      run on and leaving `calls` as the next send's number: a plain file is
      sent once and `ok` is that send's answer; an archived directory is sent
      once as its archive, if archiving and the stat succeed; a drained
      directory loses only files that were sent and delivered. The entry is
      removed exactly when it ended ok, did not stall and `RemoveAll` succeeded. */
  ghost predicate EntrySpec(srcDir: string, e: StagedEntry, sendType: string, o: Oracles, calls0: nat, budget: nat,
                            out: EntryOutcome, calls: nat)
  {
    && (out.removed <==> out.ok && !out.stalled && o.removeAll(PathJoin(srcDir, e.name)))
    && (out.removed ==> out.after == None)
    && (!out.removed ==> out.after.Some? && out.after.value.name == e.name)
    && DeletesFollowDeliveries(out.trace)
    && AgreesWith(out.trace, o, calls0, calls)
    && (e.StagedFile? ==>
      && !out.stalled && calls == calls0 + 1
      && (!out.removed ==> out.after == Some(e))
      && (var r := o.send(PathJoin(srcDir, e.name), calls0);
          out.trace == [Send(PathJoin(srcDir, e.name), calls0, r.delivered)] && out.ok == r.delivered && out.failed == r.failed))
    && (e.StagedDir? && ArchiveMode(sendType) ==>
      && !out.stalled
      && (!out.removed ==> out.after == Some(e))
      && (var a := o.archive(sendType, PathJoin(srcDir, e.name));
          && (a.None? || !o.stat(a.value) ==> out.trace == [] && !out.ok && out.failed && !out.removed && calls == calls0)
          && (a.Some? && o.stat(a.value) ==>
                var r := o.send(a.value, calls0);
                && out.trace == [Send(a.value, calls0, r.delivered)] && out.ok == r.delivered && out.failed == r.failed
                && calls == calls0 + 1)))
    && (e.StagedDir? && !ArchiveMode(sendType) ==>
      && Within(out.trace, e.files)
      && DeletesWhenRemovable(out.trace, o)
      && (!out.removed ==> out.after == Some(StagedDir(e.name, e.files - DeletedFiles(out.trace))))
      && (!out.stalled ==> e.files <= DeletedFiles(out.trace) && !out.failed && out.ok == (e.files != {}))
      && (out.stalled ==> calls >= calls0 + budget)
      && (Cooperative(o) && budget > |e.files| ==> !out.stalled && out.ok == (e.files != {})))
  }

  /** The body of the per-entry loop of `doWorkImplementation`. */
  method ProcessEntry(srcDir: string, e: StagedEntry, sendType: string, o: Oracles, calls0: nat, budget: nat)
    returns (out: EntryOutcome, calls: nat)
    ensures EntrySpec(srcDir, e, sendType, o, calls0, budget, out, calls)
  {
    var path := PathJoin(srcDir, e.name);
    var ok, failed, stalled, trace := false, false, false, [];
    var after := e;
    calls := calls0;
    match e {
      case StagedFile(_) =>
        var r := o.send(path, calls0);
        calls := calls0 + 1;
        ok, failed, trace := r.delivered, r.failed, [Send(path, calls0, r.delivered)];
      case StagedDir(name, files) =>
        if ArchiveMode(sendType) {
          var a := o.archive(sendType, path);
          failed := a.None?;
          if a.Some? {
            if !o.stat(a.value) {
              failed := true;
            } else {
              var r := o.send(a.value, calls0);
              calls := calls0 + 1;
              ok, failed, trace := r.delivered, r.failed, [Send(a.value, calls0, r.delivered)];
            }
          }
        } else {
          var left, drained, passes;
          left, ok, failed, trace, calls, drained, passes := DrainDirectory(files, calls0, budget, o);
          stalled := !drained;
          after := StagedDir(name, left);
        }
    }
    var removed := ok && !stalled && o.removeAll(path);
    out := EntryOutcome(ok, failed, stalled, removed, trace, if removed then None else Some(after));
  }

  /** The entries still staged after a sequence of outcomes. */
  function Kept(outcomes: seq<EntryOutcome>): seq<StagedEntry>
    decreases |outcomes|
  {
    if |outcomes| == 0 then []
    else
      var out := outcomes[|outcomes| - 1];
      Kept(outcomes[..|outcomes| - 1]) + (if out.after.Some? then [out.after.value] else [])
  }

  /** An entry is kept exactly when some outcome left it staged. */
  lemma {:induction false} KeptMembers(outcomes: seq<EntryOutcome>, x: StagedEntry)
    ensures x in Kept(outcomes) <==> exists i :: 0 <= i < |outcomes| && outcomes[i].after == Some(x)
    decreases |outcomes|
  {
    if |outcomes| > 0 {
      var init := outcomes[..|outcomes| - 1];
      KeptMembers(init, x);
      if exists i :: 0 <= i < |init| && init[i].after == Some(x) {
        var i :| 0 <= i < |init| && init[i].after == Some(x);
        assert outcomes[i] == init[i];
      }
      if exists i :: 0 <= i < |outcomes| && outcomes[i].after == Some(x) {
        var i :| 0 <= i < |outcomes| && outcomes[i].after == Some(x);
        if i < |init| { assert init[i] == outcomes[i]; }
      }
    }
  }

  /** One poll of the staging directory: the entries in listing order until
      one stalls (the source would stay in that drain loop for good).
      `starts[i]` is the number of the first send made for `entries[i]`. */
  method Poll(srcDir: string, entries: seq<StagedEntry>, sendType: string, o: Oracles, calls0: nat, budget: nat)
    returns (outcomes: seq<EntryOutcome>, kept: seq<StagedEntry>, stalled: bool, calls: nat, starts: seq<nat>)
    ensures |outcomes| <= |entries|
    ensures !stalled ==> |outcomes| == |entries|
    ensures stalled ==> |outcomes| > 0 && outcomes[|outcomes| - 1].stalled
    ensures forall i :: 0 <= i < |outcomes| && outcomes[i].stalled ==> i == |outcomes| - 1 && stalled
    ensures |starts| == |outcomes| + 1 && starts[0] == calls0 && starts[|outcomes|] == calls
    ensures forall i :: 0 <= i < |outcomes| ==>
      EntrySpec(srcDir, entries[i], sendType, o, starts[i], budget, outcomes[i], starts[i + 1])
    ensures forall x :: x in kept <==>
      (exists i :: 0 <= i < |outcomes| && outcomes[i].after == Some(x)) || x in entries[|outcomes|..]
    ensures kept == Kept(outcomes) + entries[|outcomes|..] && |kept| == |Kept(outcomes)| + |entries| - |outcomes|
  {
    outcomes, stalled, calls, starts := [], false, calls0, [calls0];
    var i := 0;
    while i < |entries| && !stalled
      invariant 0 <= i <= |entries| && |outcomes| == i
      invariant |starts| == i + 1 && starts[0] == calls0 && starts[i] == calls
      invariant stalled ==> i > 0 && outcomes[i - 1].stalled
      invariant forall j :: 0 <= j < i && outcomes[j].stalled ==> j == i - 1 && stalled
      invariant forall j :: 0 <= j < i ==>
        EntrySpec(srcDir, entries[j], sendType, o, starts[j], budget, outcomes[j], starts[j + 1])
      decreases |entries| - i
    {
      var out;
      out, calls := ProcessEntry(srcDir, entries[i], sendType, o, calls, budget);
      outcomes := outcomes + [out];
      starts := starts + [calls];
      stalled := out.stalled;
      i := i + 1;
    }
    kept := Kept(outcomes) + entries[|outcomes|..];
    forall x ensures x in kept <==>
      (exists j :: 0 <= j < |outcomes| && outcomes[j].after == Some(x)) || x in entries[|outcomes|..]
    {
      KeptMembers(outcomes, x);
    }
  }
}

=== FILE: detector.dfy ===
/** One iteration of the detector's loop (`ProcessManager.doWork`): classify
    the walk, then either hand every ready unit on, or (in flat-archive mode)
    copy ready files into the grouping staging directory and run the grouper. */
module Detector {
  import opened Common
  import opened Readiness
  import opened FlatArchive

  /** A `Copy(from, to)` the detector asks for. */
  datatype CopyRequest = CopyRequest(from: string, to: string)

  predicate NoDuplicates(xs: seq<string>)
  {
    forall i, j :: 0 <= i < j < |xs| ==> xs[i] != xs[j]
  }

  /** The loop over the readiness table after the walk, in any map order:
      every `true` key exactly once, `false` keys never; pushed as `src/k`
      outside flat-archive mode, copied to the grouping directory under its
      base name in flat-archive mode. */
  method EmitReady(t: Table, cfg: WatchConfig) returns (ready: seq<string>, pushed: seq<string>, copies: seq<CopyRequest>)
    ensures forall k :: k in ready <==> k in t && t[k]
    ensures NoDuplicates(ready)
    ensures cfg.sendType != "flat_tar" ==>
      && copies == []
      && |pushed| == |ready|
      && forall i :: 0 <= i < |ready| ==> pushed[i] == PathJoin(cfg.src, ready[i])
    ensures cfg.sendType == "flat_tar" ==>
      && pushed == []
      && |copies| == |ready|
      && forall i :: 0 <= i < |ready| ==>
           copies[i] == FlatCopy(ready[i], cfg)
  {
    var todo := t.Keys;
    ready, pushed, copies := [], [], [];
    while todo != {}
      invariant todo <= t.Keys
      invariant forall k :: k in ready <==> k in t.Keys - todo && t[k]
      invariant NoDuplicates(ready)
      invariant cfg.sendType != "flat_tar" ==>
        && copies == []
        && |pushed| == |ready|
        && forall i :: 0 <= i < |ready| ==> pushed[i] == PathJoin(cfg.src, ready[i])
      invariant cfg.sendType == "flat_tar" ==>
        && pushed == []
        && |copies| == |ready|
        && forall i :: 0 <= i < |ready| ==>
             copies[i] == FlatCopy(ready[i], cfg)
      decreases |todo|
    {
      var k :| k in todo;
      if t[k] {
        ready := ready + [k];
        if cfg.sendType == "flat_tar" {
          copies := copies + [FlatCopy(k, cfg)];
        } else {
          pushed := pushed + [PathJoin(cfg.src, k)];
        }
      }
      todo := todo - {k};
    }
  }

  /** The grouping staging directory as its listing shows it. */
  function StagingOf(listing: seq<DirEntry>): (st: Staging)
    ensures forall n :: n in st.files <==> DirEntry(n, false) in listing
    ensures forall n :: n in st.dirs <==> DirEntry(n, true) in listing
  {
    Staging(set e | e in listing && !e.isDir :: e.name, set e | e in listing && e.isDir :: e.name)
  }

  /** The copy of ready file `k` into the grouping directory. */
  function FlatCopy(k: string, cfg: WatchConfig): CopyRequest
  {
    CopyRequest(PathJoin(cfg.src, k), PathJoin(cfg.flatDir, Base(k)))
  }

  /** The names that the successful copies put in the grouping directory. */
  function Copied(ready: seq<string>, cfg: WatchConfig, copyOk: CopyRequest -> bool): set<string>
  {
    set k | k in ready && copyOk(FlatCopy(k, cfg)) :: Base(k)
  }

  /** Emission ready, as a statement about the walk: a key is emitted iff a
      recent regular file is filed under it and all such files have settled. */
  lemma ReadyMeansSettled(obs: seq<Observation>, cfg: WatchConfig, ready: seq<string>)
    requires forall k :: k in ready <==> k in Classify(obs, cfg) && Classify(obs, cfg)[k]
    ensures forall k :: k in ready <==> HasRecent(Walked(obs), k, cfg) && AllSettled(Walked(obs), k, cfg)
  {
    forall k ensures k in ready <==> HasRecent(Walked(obs), k, cfg) && AllSettled(Walked(obs), k, cfg) {
      ClassifyCharacterized(obs, cfg, k);
    }
  }

  /** A file whose capture list matches no group is moved by no report. */
  lemma {:induction false} UnmatchedNotMoved(reports: seq<GroupReport>, groups: map<string, seq<string>>,
                                             regex: Regex, ops: FlatOps, n: string)
    requires AllFaithful(reports, groups, regex, ops)
    requires forall k :: k in groups ==> GroupOf(n, regex).captures != groups[k]
    ensures n !in AllMembers(reports)
    decreases |reports|
  {
    if |reports| > 0 {
      UnmatchedNotMoved(reports[..|reports| - 1], groups, regex, ops, n);
    }
  }

  /** One detector cycle. `listing` is the grouping directory as read before
      this cycle's copies; `copyOk` says which copies into it succeed. */
  method DetectorCycle(obs: seq<Observation>, cfg: WatchConfig, listing: seq<DirEntry>, regex: Regex, ops: FlatOps, copyOk: CopyRequest -> bool)
    returns (ready: seq<string>, pushed: seq<string>, groups: map<string, seq<string>>, reports: seq<GroupReport>, staging: Staging)
    ensures forall k :: k in ready <==> HasRecent(Walked(obs), k, cfg) && AllSettled(Walked(obs), k, cfg)
    ensures NoDuplicates(ready)
    ensures cfg.sendType != "flat_tar" ==>
      && |pushed| == |ready|
      && (forall i :: 0 <= i < |ready| ==> pushed[i] == PathJoin(cfg.src, ready[i]))
      && reports == [] && staging == StagingOf(listing)
    ensures cfg.sendType == "flat_tar" ==> groups == CollectTarPrefixes(listing, regex)
    ensures cfg.sendType == "flat_tar" ==> pushed == Pushed(reports) && KeysCover(reports, groups.Keys)
    ensures cfg.sendType == "flat_tar" ==> AllFaithful(reports, groups, regex, ops) && DistinctKeys(reports)
    ensures cfg.sendType == "flat_tar" ==>
      staging.files + AllMembers(reports) == StagingOf(listing).files + Copied(ready, cfg, copyOk)
    ensures cfg.sendType == "flat_tar" ==>
      forall n :: n in StagingOf(listing).files ==> n in staging.files || n in AllMembers(reports)
    ensures cfg.sendType == "flat_tar" ==>
      forall n :: n in staging.files ==> n in StagingOf(listing).files || n in Copied(ready, cfg, copyOk)
    ensures cfg.sendType == "flat_tar" ==>
      forall n :: n in StagingOf(listing).files + Copied(ready, cfg, copyOk) ==>
        (forall k :: k in groups ==> GroupOf(n, regex).captures != groups[k]) ==> n in staging.files
    ensures cfg.sendType == "flat_tar" ==> StagedIffUnremoved(reports, staging.files, ops) && SharedOnlyUnremoved(reports, ops)
    ensures cfg.sendType == "flat_tar" ==>
      staging.dirs == (StagingOf(listing).dirs + Created(groups.Keys, ops)) - Deleted(groups.Keys, ops)
    ensures cfg.sendType == "flat_tar" ==> AllExhausted(reports, staging.files, groups, regex, ops)
  {
    var t := Classify(obs, cfg);
    var copyList;
    ready, pushed, copyList := EmitReady(t, cfg);
    ReadyMeansSettled(obs, cfg, ready);
    groups, reports, staging := map[], [], StagingOf(listing);
    if cfg.sendType == "flat_tar" {
      groups := CollectTarPrefixes(listing, regex);
      var before := StagingOf(listing);
      var staged := Staging(before.files + Copied(ready, cfg, copyOk), before.dirs);
      var groups', st';
      groups', st', reports, pushed := ProcessTarPrefixes(groups, staged, regex, ops);
      staging := st';
      forall n | n in staged.files && (forall k :: k in groups ==> GroupOf(n, regex).captures != groups[k])
        ensures n in staging.files
      {
        UnmatchedNotMoved(reports, groups, regex, ops, n);
      }
    }
  }
}

=== FILE: flat_archive.dfy ===
/** Flat-archive grouping: files flattened into the grouping staging
    directory are bucketed by the naming pattern's capture groups, and each
    bucket is moved into its own directory, archived and handed on. The
    pattern is an oracle: `Regex` gives `FindStringSubmatch`'s answer for a
    name (nil, or the full match followed by the captures). */
module FlatArchive {
  import opened Common

  type Regex = string -> Option<seq<string>>

  const Separator: string := "___"
  const FallbackSuffix: string := "_archive"

  /** A capture list and the group key joined from it. */
  datatype Grouping = Grouping(captures: seq<string>, key: string)

  /** One entry of a (non-recursive) directory listing. */
  datatype DirEntry = DirEntry(name: string, isDir: bool)

  /** `applyRegex`: the capture list and group key of a file name, given the
      pattern's answer `found` for that name. */
  function ApplyRegex(name: string, found: Option<seq<string>>): (g: Grouping)
    ensures found.None? ==> g.captures == [name + FallbackSuffix] && g.key == name + FallbackSuffix
    ensures found.Some? && |found.value| > 1 ==> g.captures == found.value[1..]
    ensures found.Some? && |found.value| <= 1 ==> g.captures == found.value
    ensures g.key != "" && g.key != name
    ensures var j := JoinWith(g.captures, Separator);
      g.key == j || (g.key == name + FallbackSuffix && (j == "" || j == name))
  {
    var res := if found.None? then [name + FallbackSuffix] else found.value;
    var res' := if |res| > 1 then res[1..] else res;
    var joined := JoinWith(res', Separator);
    var key := if |joined| == 0 || joined == name then name + FallbackSuffix else joined;
    Grouping(res', key)
  }

  function GroupOf(name: string, regex: Regex): Grouping
  {
    ApplyRegex(name, regex(name))
  }

  /** The listing index `i` is the last regular file deriving its key. */
  predicate LastWithKey(listing: seq<DirEntry>, i: int, regex: Regex)
    requires 0 <= i < |listing|
  {
    && !listing[i].isDir
    && forall j :: i < j < |listing| && !listing[j].isDir ==>
         GroupOf(listing[j].name, regex).key != GroupOf(listing[i].name, regex).key
  }

  /** Some regular file of the listing derives key `k`. */
  predicate Derives(listing: seq<DirEntry>, k: string, regex: Regex)
  {
    exists i :: 0 <= i < |listing| && !listing[i].isDir && GroupOf(listing[i].name, regex).key == k
  }

  /** `collectTarPrefixes`: the group map rebuilt from an empty map out of the
      regular files of the listing, a later file overwriting an earlier one
      with the same key. */
  function CollectTarPrefixes(listing: seq<DirEntry>, regex: Regex): map<string, seq<string>>
    decreases |listing|
  {
    if |listing| == 0 then map[]
    else
      var e := listing[|listing| - 1];
      var groups := CollectTarPrefixes(listing[..|listing| - 1], regex);
      if e.isDir then groups
      else
        var g := GroupOf(e.name, regex);
        groups[g.key := g.captures]
  }

  /** The collected keys are exactly the keys some regular file derives. */
  lemma {:induction false} CollectKeys(listing: seq<DirEntry>, regex: Regex, k: string)
    ensures k in CollectTarPrefixes(listing, regex) <==> Derives(listing, k, regex)
    decreases |listing|
  {
    if |listing| > 0 {
      var init := listing[..|listing| - 1];
      var e := listing[|listing| - 1];
      CollectKeys(init, regex, k);
      if Derives(listing, k, regex) {
        var i :| 0 <= i < |listing| && !listing[i].isDir && GroupOf(listing[i].name, regex).key == k;
        if i < |listing| - 1 {
          assert init[i] == listing[i];
        }
      }
      if Derives(init, k, regex) {
        var i :| 0 <= i < |init| && !init[i].isDir && GroupOf(init[i].name, regex).key == k;
        assert listing[i] == init[i];
      }
    }
  }

  /** Each key holds the capture list of the last regular file deriving it. */
  lemma {:induction false} CollectValue(listing: seq<DirEntry>, regex: Regex, i: int)
    requires 0 <= i < |listing| && LastWithKey(listing, i, regex)
    ensures var g := GroupOf(listing[i].name, regex);
      g.key in CollectTarPrefixes(listing, regex) && CollectTarPrefixes(listing, regex)[g.key] == g.captures
    decreases |listing|
  {
    if i < |listing| - 1 {
      var init := listing[..|listing| - 1];
      assert init[i] == listing[i];
      assert LastWithKey(init, i, regex) by {
        forall j | i < j < |init| && !init[j].isDir
          ensures GroupOf(init[j].name, regex).key != GroupOf(init[i].name, regex).key
        {
          assert init[j] == listing[j];
        }
      }
      CollectValue(init, regex, i);
    }
  }

  /** The regular files of a listing, in listing order. */
  function FilesOnly(listing: seq<DirEntry>): seq<DirEntry>
    decreases |listing|
  {
    if |listing| == 0 then []
    else
      var e := listing[|listing| - 1];
      FilesOnly(listing[..|listing| - 1]) + (if e.isDir then [] else [e])
  }

  /** Grouping reads only regular files: dropping the directories from the
      listing leaves the collected group map unchanged. */
  lemma {:induction false} CollectIgnoresDirectories(listing: seq<DirEntry>, regex: Regex)
    ensures CollectTarPrefixes(FilesOnly(listing), regex) == CollectTarPrefixes(listing, regex)
    decreases |listing|
  {
    if |listing| > 0 {
      var init := listing[..|listing| - 1];
      var e := listing[|listing| - 1];
      CollectIgnoresDirectories(init, regex);
      var f := FilesOnly(listing);
      if e.isDir {
        assert f == FilesOnly(init);
      } else {
        assert f == FilesOnly(init) + [e];
        assert f[..|f| - 1] == FilesOnly(init);
        assert f[|f| - 1] == e;
      }
    }
  }

  /** What moving one group's files into its directory leaves behind. */
  datatype Move = Move(remaining: set<string>, members: set<string>)

  /** The listed files whose recomputed capture list equals `captures`. */
  function Matching(listed: set<string>, captures: seq<string>, regex: Regex): (ms: set<string>)
    ensures forall n :: n in ms <==> n in listed && GroupOf(n, regex).captures == captures
  {
    set n | n in listed && GroupOf(n, regex).captures == captures
  }

  /** The inner loop of `processTarPrefixes` as written: every listed file of
      the group is copied into the group directory and then removed from the
      staging directory, whether or not the copy succeeded. The error of the
      removal is assigned and never read. */
  function MoveGroupMembersAsWritten(files: set<string>, listed: set<string>, captures: seq<string>, key: string,
                                     regex: Regex, copyOk: (string, string) -> bool, removeOk: string -> bool): (mv: Move)
    ensures forall n :: n in mv.remaining <==> n in files && !(n in Matching(listed, captures, regex) && removeOk(n))
    ensures forall n :: n in mv.members <==> n in files && n in Matching(listed, captures, regex) && copyOk(n, key)
  {
    var matching := Matching(listed, captures, regex);
    Move(files - (set n | n in matching && removeOk(n)), set n | n in matching && n in files && copyOk(n, key))
  }

  /** A file whose copy into the group directory fails is removed anyway: it
      ends up neither in the group directory nor in the staging directory. */
  lemma CopyFailureLosesFile(files: set<string>, listed: set<string>, captures: seq<string>, key: string,
                             regex: Regex, copyOk: (string, string) -> bool, removeOk: string -> bool, n: string)
    requires n in files && n in listed && GroupOf(n, regex).captures == captures && !copyOk(n, key) && removeOk(n)
    ensures var mv := MoveGroupMembersAsWritten(files, listed, captures, key, regex, copyOk, removeOk);
      n !in mv.remaining && n !in mv.members && n in files
  {
  }

  /** The same loop with the evident intent of a move: a file is removed from
      the staging directory only once it has been copied into the group
      directory. A removal that fails leaves the copied file staged as well. */
  function MoveGroupMembers(files: set<string>, listed: set<string>, captures: seq<string>, key: string,
                            regex: Regex, copyOk: (string, string) -> bool, removeOk: string -> bool): (mv: Move)
    ensures mv.remaining + mv.members == files
    ensures forall n :: n in mv.members <==> n in files && n in Matching(listed, captures, regex) && copyOk(n, key)
    ensures forall n :: n in mv.remaining <==> n in files && !(n in mv.members && removeOk(n))
  {
    var members := set n | n in Matching(listed, captures, regex) && n in files && copyOk(n, key);
    Move(files - (set n | n in members && removeOk(n)), members)
  }

  /** The grouping staging directory: its regular files and its subdirectories. */
  datatype Staging = Staging(files: set<string>, dirs: set<string>)

  /** What `tarFolder` returns: the archive path, and whether it reported an error. */
  datatype Archived = Archived(path: string, failed: bool)

  /** The filesystem and archiver as the grouper sees them, keyed by group. */
  datatype FlatOps = FlatOps(
    mkdirOk: string -> bool,
    copyOk: (string, string) -> bool,
    removeOk: string -> bool,
    tar: string -> Archived,
    removeAllOk: string -> bool)

  /** What happened to one group in one call of `processTarPrefixes`. */
  datatype GroupReport = GroupReport(
    key: string,
    created: bool,
    members: set<string>,
    archive: Option<Archived>,
    dirRemoved: bool)

  /** One iteration of the outer loop of `processTarPrefixes` for group `key`:
      skipped when its directory cannot be made; otherwise its files are moved
      in, the directory is archived, the archive path is pushed (whether or not
      archiving reported an error) and the directory is removed. */
  function ProcessGroup(st: Staging, listed: set<string>, key: string, captures: seq<string>,
                        regex: Regex, ops: FlatOps): (res: (GroupReport, Staging))
  {
    if !ops.mkdirOk(key) then (GroupReport(key, false, {}, None, false), st)
    else
      var mv := MoveGroupMembers(st.files, listed, captures, key, regex, ops.copyOk, ops.removeOk);
      var removed := ops.removeAllOk(key);
      var dirs := if removed then st.dirs - {key} else st.dirs + {key};
      (GroupReport(key, true, mv.members, Some(ops.tar(key)), removed), Staging(mv.remaining, dirs))
  }

  /** The archive paths pushed for a sequence of reports, in order. */
  function Pushed(reports: seq<GroupReport>): seq<string>
    decreases |reports|
  {
    if |reports| == 0 then []
    else
      var r := reports[|reports| - 1];
      Pushed(reports[..|reports| - 1]) + (if r.archive.Some? then [r.archive.value.path] else [])
  }

  /** Every file moved by some report. */
  function AllMembers(reports: seq<GroupReport>): set<string>
    decreases |reports|
  {
    if |reports| == 0 then {} else AllMembers(reports[..|reports| - 1]) + reports[|reports| - 1].members
  }

  /** A report that agrees with the oracles and the group map. */
  predicate Faithful(r: GroupReport, groups: map<string, seq<string>>, regex: Regex, ops: FlatOps)
  {
    && r.key in groups
    && r.created == ops.mkdirOk(r.key)
    && (r.created ==> r.archive == Some(ops.tar(r.key)) && r.dirRemoved == ops.removeAllOk(r.key))
    && (!r.created ==> r.members == {} && r.archive == None && !r.dirRemoved)
    && forall n :: n in r.members ==> GroupOf(n, regex).captures == groups[r.key] && ops.copyOk(n, r.key)
  }

  /** Every report of the sequence is faithful. */
  predicate AllFaithful(reports: seq<GroupReport>, groups: map<string, seq<string>>, regex: Regex, ops: FlatOps)
    decreases |reports|
  {
    |reports| == 0 ||
    (AllFaithful(reports[..|reports| - 1], groups, regex, ops) && Faithful(reports[|reports| - 1], groups, regex, ops))
  }

  /** The keys a report sequence deleted from the map: made, then removed again. */
  function Deleted(keys: set<string>, ops: FlatOps): set<string>
  {
    set k | k in keys && ops.mkdirOk(k) && ops.removeAllOk(k)
  }

  function Created(keys: set<string>, ops: FlatOps): set<string>
  {
    set k | k in keys && ops.mkdirOk(k)
  }

  ghost predicate KeysCover(reports: seq<GroupReport>, keys: set<string>)
  {
    forall k :: k in keys <==> exists i :: 0 <= i < |reports| && reports[i].key == k
  }

  predicate DistinctKeys(reports: seq<GroupReport>)
  {
    forall i, j :: 0 <= i < j < |reports| ==> reports[i].key != reports[j].key
  }

  /** A moved file is still staged exactly when its removal failed. */
  predicate StagedIffUnremoved(reports: seq<GroupReport>, files: set<string>, ops: FlatOps)
  {
    forall n :: n in AllMembers(reports) ==> (n in files <==> !ops.removeOk(n))
  }

  /** Two groups share a moved file only when removing it after the first copy failed. */
  predicate SharedOnlyUnremoved(reports: seq<GroupReport>, ops: FlatOps)
  {
    forall i, j, n :: 0 <= i < j < |reports| && n in reports[i].members && n in reports[j].members ==> !ops.removeOk(n)
  }

  /** Once the directory of `r` was made, every file of its group still in
      `files` whose copy into that directory succeeds was moved by `r`, and
      stays only because its removal failed. */
  predicate Exhausted(r: GroupReport, files: set<string>, groups: map<string, seq<string>>, regex: Regex, ops: FlatOps)
  {
    r.key in groups && r.created ==>
      forall n :: n in files && GroupOf(n, regex).captures == groups[r.key] && ops.copyOk(n, r.key) ==>
        n in r.members && !ops.removeOk(n)
  }

  /** Every report of the sequence is exhausted against `files`. */
  predicate AllExhausted(reports: seq<GroupReport>, files: set<string>, groups: map<string, seq<string>>,
                         regex: Regex, ops: FlatOps)
    decreases |reports|
  {
    |reports| == 0 ||
    (AllExhausted(reports[..|reports| - 1], files, groups, regex, ops) && Exhausted(reports[|reports| - 1], files, groups, regex, ops))
  }

  /** What holds after the groups in `done` have been processed. */
  ghost predicate ProcessInv(groups: map<string, seq<string>>, st: Staging, done: set<string>,
                             groups': map<string, seq<string>>, st': Staging, reports: seq<GroupReport>,
                             pushed: seq<string>, regex: Regex, ops: FlatOps)
  {
    && groups'.Keys == groups.Keys - Deleted(done, ops)
    && (forall k :: k in groups' ==> groups'[k] == groups[k])
    && KeysCover(reports, done) && DistinctKeys(reports)
    && AllFaithful(reports, groups, regex, ops)
    && pushed == Pushed(reports)
    && st'.files + AllMembers(reports) == st.files
    && StagedIffUnremoved(reports, st'.files, ops)
    && SharedOnlyUnremoved(reports, ops)
    && AllExhausted(reports, st'.files, groups, regex, ops)
    && st'.dirs == (st.dirs + Created(done, ops)) - Deleted(done, ops)
  }

  /** The grouper part-way through the map, with the keys `todo` still to visit. */
  datatype Progress = Progress(todo: set<string>, groups: map<string, seq<string>>, staging: Staging,
                               reports: seq<GroupReport>, pushed: seq<string>)

  /** Handling group `k` from progress `p`. */
  function Advance(groups: map<string, seq<string>>, listed: set<string>, regex: Regex, ops: FlatOps,
                   p: Progress, k: string): Progress
    requires k in groups
  {
    var (r, next) := ProcessGroup(p.staging, listed, k, groups[k], regex, ops);
    Progress(p.todo - {k}, if r.created && r.dirRemoved then p.groups - {k} else p.groups, next,
             p.reports + [r], p.pushed + (if r.archive.Some? then [r.archive.value.path] else []))
  }

  ghost predicate Progressing(groups: map<string, seq<string>>, st: Staging, regex: Regex, ops: FlatOps, p: Progress)
  {
    p.todo <= groups.Keys && ProcessInv(groups, st, groups.Keys - p.todo, p.groups, p.staging, p.reports, p.pushed, regex, ops)
  }

  lemma AdvanceStep(groups: map<string, seq<string>>, st: Staging, regex: Regex, ops: FlatOps, p: Progress, k: string)
    requires Progressing(groups, st, regex, ops, p) && k in p.todo
    ensures Progressing(groups, st, regex, ops, Advance(groups, st.files, regex, ops, p, k))
    ensures |Advance(groups, st.files, regex, ops, p, k).todo| < |p.todo|
  {
    ProcessStep(groups, st, groups.Keys - p.todo, p.groups, p.staging, p.reports, p.pushed, regex, ops, k);
    RemoveFromTodo(groups.Keys, p.todo, k);
  }

  /** `processTarPrefixes` over the group map, in any iteration order, against
      the staging directory whose regular files were listed at its start. */
  method ProcessTarPrefixes(groups: map<string, seq<string>>, st: Staging, regex: Regex, ops: FlatOps)
    returns (groups': map<string, seq<string>>, st': Staging, reports: seq<GroupReport>, pushed: seq<string>)
    ensures groups'.Keys == groups.Keys - Deleted(groups.Keys, ops)
    ensures forall k :: k in groups' ==> groups'[k] == groups[k]
    ensures KeysCover(reports, groups.Keys) && DistinctKeys(reports)
    ensures AllFaithful(reports, groups, regex, ops)
    ensures pushed == Pushed(reports)
    ensures st'.files + AllMembers(reports) == st.files
    ensures StagedIffUnremoved(reports, st'.files, ops)
    ensures SharedOnlyUnremoved(reports, ops)
    ensures AllExhausted(reports, st'.files, groups, regex, ops)
    ensures st'.dirs == (st.dirs + Created(groups.Keys, ops)) - Deleted(groups.Keys, ops)
  {
    var p := Progress(groups.Keys, groups, st, [], []);
    while p.todo != {}
      invariant p.todo <= groups.Keys
      invariant Progressing(groups, st, regex, ops, p)
      decreases |p.todo|
    {
      var k :| k in p.todo;
      AdvanceStep(groups, st, regex, ops, p, k);
      p := Advance(groups, st.files, regex, ops, p, k);
    }
    ProgressExit(groups, st, regex, ops, p);
    groups', st', reports, pushed := p.groups, p.staging, p.reports, p.pushed;
  }

  lemma ProgressExit(groups: map<string, seq<string>>, st: Staging, regex: Regex, ops: FlatOps, p: Progress)
    requires Progressing(groups, st, regex, ops, p) && p.todo == {}
    ensures p.groups.Keys == groups.Keys - Deleted(groups.Keys, ops)
    ensures forall k :: k in p.groups ==> p.groups[k] == groups[k]
    ensures KeysCover(p.reports, groups.Keys) && DistinctKeys(p.reports)
    ensures AllFaithful(p.reports, groups, regex, ops)
    ensures p.pushed == Pushed(p.reports)
    ensures p.staging.files + AllMembers(p.reports) == st.files
    ensures StagedIffUnremoved(p.reports, p.staging.files, ops)
    ensures SharedOnlyUnremoved(p.reports, ops)
    ensures AllExhausted(p.reports, p.staging.files, groups, regex, ops)
    ensures p.staging.dirs == (st.dirs + Created(groups.Keys, ops)) - Deleted(groups.Keys, ops)
  {
    assert groups.Keys - p.todo == groups.Keys;
  }

  lemma ProcessStep(groups: map<string, seq<string>>, st: Staging, done: set<string>,
                    groups': map<string, seq<string>>, st': Staging, reports: seq<GroupReport>,
                    pushed: seq<string>, regex: Regex, ops: FlatOps, k: string)
    requires k in groups && k !in done
    requires ProcessInv(groups, st, done, groups', st', reports, pushed, regex, ops)
    ensures var (r, next) := ProcessGroup(st', st.files, k, groups[k], regex, ops);
      ProcessInv(groups, st, done + {k}, if r.created && r.dirRemoved then groups' - {k} else groups', next,
                 reports + [r], pushed + (if r.archive.Some? then [r.archive.value.path] else []), regex, ops)
  {
    var (r, next) := ProcessGroup(st', st.files, k, groups[k], regex, ops);
    KeysStep(reports, r, done);
    MembersStep(reports, r, st'.files, next.files, st.files, ops);
    DirsStep(st.dirs, st'.dirs, next.dirs, done, k, ops);
    assert Faithful(r, groups, regex, ops);
    ExhaustedNew(st', st.files, k, groups, regex, ops);
    ExhaustedStep(reports, r, st'.files, next.files, groups, regex, ops);
    var reports' := reports + [r];
    assert reports'[..|reports'| - 1] == reports;
    MapStep(groups, groups', done, k, ops);
  }

  lemma KeysStep(reports: seq<GroupReport>, r: GroupReport, done: set<string>)
    requires r.key !in done
    requires KeysCover(reports, done) && DistinctKeys(reports)
    ensures KeysCover(reports + [r], done + {r.key}) && DistinctKeys(reports + [r])
  {
    var rs := reports + [r];
    forall k ensures k in done + {r.key} <==> exists i :: 0 <= i < |rs| && rs[i].key == k {
      if k in done {
        var i :| 0 <= i < |reports| && reports[i].key == k;
        assert rs[i].key == k;
      }
      if k == r.key { assert rs[|reports|].key == k; }
      if exists i :: 0 <= i < |rs| && rs[i].key == k {
        var i :| 0 <= i < |rs| && rs[i].key == k;
        if i < |reports| { assert reports[i].key == k; }
      }
    }
  }

  lemma MembersStep(reports: seq<GroupReport>, r: GroupReport, files: set<string>, remaining: set<string>,
                    listed: set<string>, ops: FlatOps)
    requires files + AllMembers(reports) == listed
    requires StagedIffUnremoved(reports, files, ops) && SharedOnlyUnremoved(reports, ops)
    requires r.members <= files
    requires forall n :: n in remaining <==> n in files && !(n in r.members && ops.removeOk(n))
    ensures remaining + AllMembers(reports + [r]) == listed
    ensures StagedIffUnremoved(reports + [r], remaining, ops) && SharedOnlyUnremoved(reports + [r], ops)
  {
    var rs := reports + [r];
    assert rs[..|rs| - 1] == reports;
    assert AllMembers(rs) == AllMembers(reports) + r.members;
    forall i, j, n | 0 <= i < j < |rs| && n in rs[i].members && n in rs[j].members ensures !ops.removeOk(n) {
      assert rs[i] == reports[i];
      if j == |reports| {
        assert rs[j] == r;
        AllMembersContains(reports, i);
      } else {
        assert rs[j] == reports[j];
      }
    }
  }

  /** The report of a freshly handled group is exhausted against what it left staged. */
  lemma ExhaustedNew(st: Staging, listed: set<string>, k: string, groups: map<string, seq<string>>,
                     regex: Regex, ops: FlatOps)
    requires k in groups && st.files <= listed
    ensures var (r, next) := ProcessGroup(st, listed, k, groups[k], regex, ops); Exhausted(r, next.files, groups, regex, ops)
  {
    var (r, next) := ProcessGroup(st, listed, k, groups[k], regex, ops);
    if r.created {
      forall n | n in next.files && GroupOf(n, regex).captures == groups[k] && ops.copyOk(n, k)
        ensures n in r.members && !ops.removeOk(n)
      {
        assert n in Matching(listed, groups[k], regex);
      }
    }
  }

  lemma ExhaustedStep(reports: seq<GroupReport>, r: GroupReport, files: set<string>, remaining: set<string>,
                      groups: map<string, seq<string>>, regex: Regex, ops: FlatOps)
    requires AllExhausted(reports, files, groups, regex, ops) && remaining <= files
    requires Exhausted(r, remaining, groups, regex, ops)
    ensures AllExhausted(reports + [r], remaining, groups, regex, ops)
  {
    AllExhaustedShrink(reports, files, remaining, groups, regex, ops);
    assert (reports + [r])[..|reports|] == reports;
  }

  /** Exhaustion survives the staging directory losing files. */
  lemma {:induction false} AllExhaustedShrink(reports: seq<GroupReport>, files: set<string>, remaining: set<string>,
                                              groups: map<string, seq<string>>, regex: Regex, ops: FlatOps)
    requires AllExhausted(reports, files, groups, regex, ops) && remaining <= files
    ensures AllExhausted(reports, remaining, groups, regex, ops)
    decreases |reports|
  {
    if |reports| > 0 {
      AllExhaustedShrink(reports[..|reports| - 1], files, remaining, groups, regex, ops);
    }
  }

  lemma RemoveFromTodo(keys: set<string>, todo: set<string>, k: string)
    requires k in todo && todo <= keys
    ensures keys - (todo - {k}) == (keys - todo) + {k}
  {
  }

  lemma MapStep(groups: map<string, seq<string>>, groups': map<string, seq<string>>, done: set<string>,
                k: string, ops: FlatOps)
    requires k in groups && k !in done
    requires groups'.Keys == groups.Keys - Deleted(done, ops)
    ensures var g := if ops.mkdirOk(k) && ops.removeAllOk(k) then groups' - {k} else groups';
      g.Keys == groups.Keys - Deleted(done + {k}, ops)
  {
    DeletedStep(done, k, ops);
  }

  lemma DeletedStep(done: set<string>, k: string, ops: FlatOps)
    ensures Deleted(done + {k}, ops) == Deleted(done, ops) + (if ops.mkdirOk(k) && ops.removeAllOk(k) then {k} else {})
    ensures Created(done + {k}, ops) == Created(done, ops) + (if ops.mkdirOk(k) then {k} else {})
  {
  }

  lemma DirsStep(dirs0: set<string>, dirs: set<string>, dirs': set<string>, done: set<string>, k: string, ops: FlatOps)
    requires k !in done
    requires dirs == (dirs0 + Created(done, ops)) - Deleted(done, ops)
    requires !ops.mkdirOk(k) ==> dirs' == dirs
    requires ops.mkdirOk(k) && ops.removeAllOk(k) ==> dirs' == dirs - {k}
    requires ops.mkdirOk(k) && !ops.removeAllOk(k) ==> dirs' == dirs + {k}
    ensures dirs' == (dirs0 + Created(done + {k}, ops)) - Deleted(done + {k}, ops)
  {
    DeletedStep(done, k, ops);
  }

  lemma {:induction false} AllMembersContains(reports: seq<GroupReport>, i: int)
    requires 0 <= i < |reports|
    ensures reports[i].members <= AllMembers(reports)
    decreases |reports|
  {
    if i < |reports| - 1 {
      assert reports[..|reports| - 1][i] == reports[i];
      AllMembersContains(reports[..|reports| - 1], i);
    }
  }
}

=== FILE: readiness.dfy ===
/** The stability detector's readiness table: one walk over the watched root
    folded into a map from FolderKey to "settled". Ages are Go durations
    (`now - mtime`, int64 nanoseconds), written here as unbounded integers. */
module Readiness {
  import opened Common

  /** What the walk hands its callback for one path. */
  datatype Observation =
    | Seen(relPath: string, isDir: bool, age: int)
    | Unreadable  // the callback received a non-nil error and returned it

  /** The parts of the watch configuration the detector reads; `rootDir`
      stands for `getRootDir`, whose body is not part of this model. */
  datatype WatchConfig = WatchConfig(
    src: string,
    duration: int,
    sendType: string,
    rootDir: string -> string,
    flatDir: string)

  type Table = map<string, bool>

  /** Modes in which every file is its own unit. */
  predicate PerFileMode(sendType: string)
  {
    sendType == "file" || sendType == "flat_tar"
  }

  /** The unit a file's readiness is aggregated under. */
  function FolderKey(relPath: string, cfg: WatchConfig): string
  {
    if PerFileMode(cfg.sendType) then relPath else cfg.rootDir(relPath)
  }

  /** A regular file young enough (`age < 2D`) to take part in this cycle. */
  predicate Recent(o: Observation, cfg: WatchConfig)
  {
    o.Seen? && !o.isDir && o.age < 2 * cfg.duration
  }

  /** A recent file filed under key `k`. */
  predicate CountsFor(o: Observation, k: string, cfg: WatchConfig)
  {
    Recent(o, cfg) && FolderKey(o.relPath, cfg) == k
  }

  /** One callback on a regular file of age `age` under key `k`. */
  function Observe(t: Table, k: string, age: int, d: int): Table
  {
    if age < 2 * d then
      var t' := if k in t then t else t[k := true];
      if age <= d then t'[k := false] else t'
    else t
  }

  /** The walk from table `t`: directories are skipped, the first error ends it. */
  function WalkFrom(t: Table, obs: seq<Observation>, cfg: WatchConfig): Table
    decreases |obs|
  {
    if |obs| == 0 then t
    else match obs[0]
      case Unreadable => t
      case Seen(p, isDir, age) =>
        WalkFrom(if isDir then t else Observe(t, FolderKey(p, cfg), age, cfg.duration), obs[1..], cfg)
  }

  /** The table `doWork` builds in one cycle, starting from an empty map. */
  function Classify(obs: seq<Observation>, cfg: WatchConfig): Table
  {
    WalkFrom(map[], obs, cfg)
  }

  /** The observations the walk gets to: everything before the first error. */
  function Walked(obs: seq<Observation>): (w: seq<Observation>)
    ensures Unreadable !in w
    ensures forall o :: o in w ==> o in obs
    ensures Unreadable !in obs ==> w == obs
  {
    if |obs| == 0 || obs[0].Unreadable? then [] else [obs[0]] + Walked(obs[1..])
  }

  predicate HasRecent(obs: seq<Observation>, k: string, cfg: WatchConfig)
  {
    exists o :: o in obs && CountsFor(o, k, cfg)
  }

  predicate AllSettled(obs: seq<Observation>, k: string, cfg: WatchConfig)
  {
    forall o :: o in obs && CountsFor(o, k, cfg) ==> o.age > cfg.duration
  }

  /** The keys whose value ends the cycle `true`. */
  function ReadyKeys(t: Table): (ks: set<string>)
    ensures forall k :: k in ks <==> k in t && t[k]
  {
    set k | k in t && t[k]
  }

  /** Walking from any table: a key is present iff it was already present or a
      recent file is filed under it, and it stays `true` iff it started `true`
      (or absent) and every recent file under it is older than `D`. */
  lemma {:induction false} WalkFromCharacterized(t: Table, obs: seq<Observation>, cfg: WatchConfig, k: string)
    ensures k in WalkFrom(t, obs, cfg) <==> k in t || HasRecent(Walked(obs), k, cfg)
    ensures k in WalkFrom(t, obs, cfg) ==>
      (WalkFrom(t, obs, cfg)[k] <==> (k in t ==> t[k]) && AllSettled(Walked(obs), k, cfg))
    decreases |obs|
  {
    if |obs| == 0 || obs[0].Unreadable? {
      assert Walked(obs) == [];
    } else {
      var o := obs[0];
      var t' := if o.isDir then t else Observe(t, FolderKey(o.relPath, cfg), o.age, cfg.duration);
      WalkFromCharacterized(t', obs[1..], cfg, k);
      var w := Walked(obs);
      assert w == [o] + Walked(obs[1..]);
      assert forall x :: x in w <==> x == o || x in Walked(obs[1..]);
      if CountsFor(o, k, cfg) {
        assert k in t';
        assert HasRecent(w, k, cfg);
      }
    }
  }

  /** Readiness, final value: a key is in the table iff a recent regular file
      is filed under it, and it is `true` iff every such file is older than `D`. */
  lemma ClassifyCharacterized(obs: seq<Observation>, cfg: WatchConfig, k: string)
    ensures k in Classify(obs, cfg) <==> HasRecent(Walked(obs), k, cfg)
    ensures k in Classify(obs, cfg) ==> (Classify(obs, cfg)[k] <==> AllSettled(Walked(obs), k, cfg))
    ensures k in ReadyKeys(Classify(obs, cfg)) <==>
      HasRecent(Walked(obs), k, cfg) && AllSettled(Walked(obs), k, cfg)
  {
    WalkFromCharacterized(map[], obs, cfg, k);
  }

  /** The table does not depend on walk order: two error-free walks that saw
      the same observations build the same table. */
  lemma ClassifyOrderIndependent(obs1: seq<Observation>, obs2: seq<Observation>, cfg: WatchConfig)
    requires Unreadable !in obs1 && Unreadable !in obs2
    requires forall o :: o in obs1 <==> o in obs2
    ensures Classify(obs1, cfg) == Classify(obs2, cfg)
  {
    var t1, t2 := Classify(obs1, cfg), Classify(obs2, cfg);
    forall k
      ensures k in t1 <==> k in t2
      ensures k in t1 && k in t2 ==> t1[k] == t2[k]
    {
      ClassifyCharacterized(obs1, cfg, k);
      ClassifyCharacterized(obs2, cfg, k);
    }
    assert t1.Keys == t2.Keys;
  }

  /** Which files count: a directory, or a file aged `2D` or more, can be
      dropped from anywhere in the walk without changing the table. */
  lemma {:induction false} IgnoredObservationInvisible(t: Table, before: seq<Observation>, o: Observation,
                                                       after: seq<Observation>, cfg: WatchConfig)
    requires o.Seen? && !Recent(o, cfg)
    ensures WalkFrom(t, before + [o] + after, cfg) == WalkFrom(t, before + after, cfg)
    decreases |before|
  {
    if |before| == 0 {
      assert before + [o] + after == [o] + after;
      assert before + after == after;
      assert ([o] + after)[1..] == after;
      assert !o.isDir ==> Observe(t, FolderKey(o.relPath, cfg), o.age, cfg.duration) == t;
    } else {
      assert (before + [o] + after)[0] == before[0] && (before + after)[0] == before[0];
      if !before[0].Unreadable? {
        var t' := if before[0].isDir then t
                  else Observe(t, FolderKey(before[0].relPath, cfg), before[0].age, cfg.duration);
        assert (before + [o] + after)[1..] == before[1..] + [o] + after;
        assert (before + after)[1..] == before[1..] + after;
        IgnoredObservationInvisible(t', before[1..], o, after, cfg);
      }
    }
  }

  /** FolderKey choice: in per-file modes the ready keys are relative paths of
      settled files; in the other modes they are root directories of them. */
  lemma ReadyKeysAreFolderKeys(obs: seq<Observation>, cfg: WatchConfig, k: string)
    requires k in ReadyKeys(Classify(obs, cfg))
    ensures PerFileMode(cfg.sendType) ==>
      exists o :: o in obs && Recent(o, cfg) && o.relPath == k && o.age > cfg.duration
    ensures !PerFileMode(cfg.sendType) ==>
      exists o :: o in obs && Recent(o, cfg) && cfg.rootDir(o.relPath) == k && o.age > cfg.duration
  {
    ClassifyCharacterized(obs, cfg, k);
    var o :| o in Walked(obs) && CountsFor(o, k, cfg);
    assert o in obs && o.age > cfg.duration;
  }

  /** A `false` is never turned back to `true`: once a key is marked not
      ready, the rest of the walk leaves it not ready. */
  lemma FalseIsFinal(t: Table, obs: seq<Observation>, cfg: WatchConfig, k: string)
    requires k in t && !t[k]
    ensures k in WalkFrom(t, obs, cfg) && !WalkFrom(t, obs, cfg)[k]
  {
    WalkFromCharacterized(t, obs, cfg, k);
  }
}

=== FILE: transport.dfy ===
/** Choosing a destination profile and a transport for a delivery pipeline
    (`newFileTransferManager`, `newConvertedTransferManager`,
    `newTransferManager`). */
module Transport {
  import opened Common

  /** The two transports the daemon implements. */
  datatype TransportKind = WebDav | Sftp

  /** Credentials, endpoint and staging directory of one delivery pipeline. */
  datatype DestCredentials = DestCredentials(user: string, pass: string, dst: string, srcDir: string)

  /** A delivery pipeline: its transport and the profile it delivers with. */
  datatype TransferManager = TransferManager(kind: TransportKind, dest: DestCredentials)

  /** The command-line arguments the factories read. */
  datatype Args = Args(
    user: string, pass: string, dst: string,
    userConverter: string, passConverter: string, dstConverter: string,
    tType: string)

  /** The working directories of the two pipelines (`TempPath`, `TempConvertedPath`). */
  datatype WorkPaths = WorkPaths(tempPath: string, tempConvertedPath: string)

  /** The configuration tag that names a transport. */
  function Tag(kind: TransportKind): string
  {
    match kind
    case WebDav => "webdav"
    case Sftp => "sftp"
  }

  /** `newTransferManager`: "webdav" and "sftp" select their transport over
      the given profile; any other tag is an error (a panic in the source). */
  function NewTransferManager(args: Args, dest: DestCredentials): (r: Result<TransferManager, string>)
    ensures r.Success? <==> args.tType == "webdav" || args.tType == "sftp"
    ensures r.Success? ==> r.value.dest == dest && Tag(r.value.kind) == args.tType
  {
    if args.tType == "webdav" then Success(TransferManager(WebDav, dest))
    else if args.tType == "sftp" then Success(TransferManager(Sftp, dest))
    else Failure("Transfer type is not implemented")
  }

  /** The tag of each transport selects exactly that transport. */
  lemma TagSelectsKind(args: Args, dest: DestCredentials, kind: TransportKind)
    requires args.tType == Tag(kind)
    ensures NewTransferManager(args, dest) == Success(TransferManager(kind, dest))
  {
  }

  /** `newFileTransferManager`: the primary profile, staged in `TempPath`. */
  function NewFileTransferManager(args: Args, paths: WorkPaths): (r: Result<TransferManager, string>)
    ensures r.Success? ==> r.value.dest == DestCredentials(args.user, args.pass, args.dst, paths.tempPath)
  {
    NewTransferManager(args, DestCredentials(args.user, args.pass, args.dst, paths.tempPath))
  }

  /** `newConvertedTransferManager`: the converted profile, staged in
      `TempConvertedPath` with the converter's credentials. */
  function NewConvertedTransferManager(args: Args, paths: WorkPaths): (r: Result<TransferManager, string>)
    ensures r.Success? ==>
      r.value.dest == DestCredentials(args.userConverter, args.passConverter, args.dstConverter, paths.tempConvertedPath)
  {
    NewTransferManager(args, DestCredentials(args.userConverter, args.passConverter, args.dstConverter, paths.tempConvertedPath))
  }

  /** Both pipelines use the one configured transport: they are built or
      refused together, with the same kind, and differ in staging directory
      whenever the two working directories differ. */
  lemma ProfilesShareTransport(args: Args, paths: WorkPaths)
    ensures NewFileTransferManager(args, paths).Success? <==> NewConvertedTransferManager(args, paths).Success?
    ensures NewFileTransferManager(args, paths).Success? ==>
      NewFileTransferManager(args, paths).value.kind == NewConvertedTransferManager(args, paths).value.kind
    ensures NewFileTransferManager(args, paths).Success? && paths.tempPath != paths.tempConvertedPath ==>
      NewFileTransferManager(args, paths).value.dest.srcDir != NewConvertedTransferManager(args, paths).value.dest.srcDir
  {
  }
}
